=== FILE: README.md ===
# Rollback of applied migrations (`down`)

A Dafny model of the `down` command of migrations-mongodb: it picks which
changelog query to run from the rollback options, keeps the candidates whose
migration file exists, decides whether the run uses one global transaction
session, and then reverses each candidate in order, deleting its changelog
document when the reversal completes.

Files:

- `wrappers.dfy`: `Option`, standing for an absent JavaScript value.
- `changelog.dfy`: changelog documents and the changelog collection, a class
  whose contents (a map from document id to document) `DeleteOne` updates.
- `selection.dfy`: the rollback options, the precedence of selection modes
  (`getMigrationsToRollback`), and the file filter of `down` (a specification function
  `Resolve` and the loop `ResolveFiles` proved against it).
- `rollback.dfy`: the dispatch of `down` entry points, how the body of the
  `try` ends (`TryBody`), one pass of the loop body (`Next`, and `StepOf`
  with the oracles' answers filled in), the loop of `rollbackMigrations` as a specification function
  `RollbackRun`, the imperative loop
  `RollbackMigrations` proved against it, and the lemmas about failure handling.
- `command.dfy`: the client fields `down` sets, the compile cache it removes,
  and `Down` itself.

Everything the command cannot see into is a parameter: the changelog queries
(`query: Query -> seq<Entry>`), the file-system check (`fileExists`), the
compile-and-load step (`None` when it throws), how a migration's `down` ends
(it completes, or throws an error value that may be nullish), whether
`deleteOne` completes, the native-file pattern (all in `Env`), the
configuration, and the session a transaction opens. The session is passed to
`RollbackMigrations` explicitly: it is the value of `client.globalSession` when
`Down` calls it.

Behaviour of the code worth noting, which the model keeps:

- A throwing `deleteOne` sits outside the `try`/`catch`, so it ends the run in
  both modes. It is not caught and logged per migration in independent mode.
- Without a session the `catch` logs `err.message`. When a migration rejects
  with `undefined` or `null`, that read itself throws a `TypeError`, which
  escapes the loop and ends the run (`CatchThrew`). Any other error is only
  logged, and the document is kept.
- `options.batch` and `options.steps` are JavaScript numbers. `NaN` is falsy,
  so a `NaN` batch falls through to the steps query; a `NaN` steps value is
  passed on as it is, distinct from an absent one.
- Without a global transaction, `down` does not clear `client.globalSession`.
  The loop re-throws whenever the client already carried a session, so `Down`
  states the session used as "the new one if a transaction was opened,
  otherwise the client's previous one".
- Ordering ("newest first"), the default of one step and "0 means all" belong
  to the query bodies, which are not part of this model. The model states only
  which query is chosen and with what argument.

## Model

| member | source | states |
|---|---|---|
| `Selection.SelectQuery` | src/lib/commands/down.ts:94-104 | a truthy `file` (present and non-empty) selects the file query with that name; otherwise a truthy `reset` selects the latest-migrations query with 0; otherwise a truthy `batch` (a number other than 0, so neither absent nor `NaN`) selects the batch query with that batch; otherwise the latest-migrations query gets `steps` unchanged, absent, `NaN` and 0 kept apart |
| `Selection.SelectionPrecedence` | src/lib/commands/down.ts:95-101 | once a mode is chosen, the options of lower precedence and `dryRun` do not change the query |
| `Selection.Resolve` | src/lib/commands/down.ts:35-42 | every kept candidate comes from the selected entries, carries path `dir + "/" + fileName`, and that file exists; no more candidates than entries |
| `Selection.KeptIndicesIncreasing` | src/lib/commands/down.ts:35-42 | the positions the filter keeps are strictly increasing, so the kept candidates are in the order of the query's result |
| `Selection.KeptIndicesSelect` | src/lib/commands/down.ts:35-42 | the k-th kept candidate is the entry at the k-th kept position, with `filePath` equal to the directory, `/` and the file name |
| `Selection.KeptIndicesExact` | src/lib/commands/down.ts:35-42 | a position is kept exactly when its file exists, so missing files are dropped without error and no existing one is lost |
| `Selection.ResolveFiles` | src/lib/commands/down.ts:31-42 | the `forEach` loop that pushes candidates produces exactly `Resolve` of the selected entries |
| `Changelog.Collection.DeleteOne` | src/lib/commands/down.ts:84-86 | a completing deletion removes exactly the document with that id; a throwing one removes nothing |
| `Rollback.DownArguments` | src/lib/commands/down.ts:106-115 | a file matching the native pattern gets exactly two arguments, the raw database handle then the client; otherwise the entry point gets the facade bound to the current session first, and the client as a second and last argument exactly when `down` declares more than one parameter, so one or two arguments in all |
| `Rollback.RunShape` | src/lib/commands/down.ts:61-91 | for any outcomes, the attempted candidates are a prefix of the list in list order; the run stops early only on an error; the error names the last candidate attempted; surviving changelog documents are unchanged |
| `Rollback.RollbackMigrations` | src/lib/commands/down.ts:57-92 | the loop, with the load and dispatch of the `try` inline and its `isProcessed` flag, leaves the changelog, the attempted list and the outcome that `RollbackRun` gives for the old changelog |
| `Rollback.RunWithoutAbort` | src/lib/commands/down.ts:61-91 | when no candidate ends the run, all are attempted in order, the run completes, and the changelog loses exactly the ids of the reversed candidates |
| `Rollback.RunStopsAtFirstAbort` | src/lib/commands/down.ts:65-86 | the first candidate whose reversal throws under a session, whose reversal throws a nullish error without one, or whose deletion throws in either mode, is the last one attempted; its error (re-thrown, from the `catch`, or from `deleteOne`) is the outcome; nothing is deleted for it; the changelog is the old one minus exactly the ids of the earlier reversed candidates |
| `Rollback.IndependentModeAttemptsAll` | src/lib/commands/down.ts:75-83 | without a session, with the deletions it issues completing (those of reversed candidates) and no reversal throwing a nullish error, every candidate is attempted, the run completes, and the changelog is the old one minus exactly the reversed ids; failed candidates keep their documents |
| `Rollback.GlobalSessionStopsAtFirstFailure` | src/lib/commands/down.ts:75-76 | under a session, with the deletions before it completing, the first reversal that throws is re-thrown: no deletion for it, no later candidate attempted, and the changelog has lost exactly the earlier candidates' documents |
| `Rollback.RunDeletesOnlyReversed` | src/lib/commands/down.ts:75-86 | for any outcomes, every deleted document belongs to an attempted candidate whose reversal completed |
| `Rollback.DeletedDocumentsWereReversed` | src/lib/commands/down.ts:83-86 | on a changelog keyed by `_id`, the run keeps it keyed so, and every removed document's own `_id` is that of an attempted candidate whose reversal completed, since `deleteOne` filters on `appliedMigration._id` |
| `Rollback.AllReversedIds` | src/lib/commands/down.ts:83-86 | when every candidate reverses, the reversed ids are the ids of all candidates |
| `Rollback.ReversedIdsOfCandidates` | src/lib/commands/down.ts:83-86 | an id that no candidate carries is never among the reversed ids |
| `Command.Down` | src/lib/commands/down.ts:20-55 | records the options on the client; the candidates are the resolved result of the selected query; a global session is opened exactly when there are candidates and `useDefaultTransaction` or `dryRun` holds; with no candidates nothing is attempted and the changelog is untouched; otherwise the attempts, the outcome and the changelog as the loop leaves it (`sessionLog`) are those of the rollback loop under the session in use; the stored changelog is that log, except after an opened session that is not committed, where it is the old one; the compile cache is absent afterwards on every path |
| `Command.SkippedEntrySurvives` | src/lib/commands/down.ts:35-51 | a changelog document whose selected entries all lack a migration file is never deleted by the run, whatever the reversals and deletions report |

## Left out

- The changelog queries `getMigrationForFile`, `getLatestMigrations` and
  `getLatestMigrationBatch` live in `src/lib/utils/migration-dir`, which is
  not part of this model. They are the oracle `query`, so nothing is claimed
  about their order, duplicates or defaults.
- `handleDbTransaction` is not part of this model. Whether it commits the
  session it opened is the oracle `commits`, given the loop's outcome. Inside
  that session the loop works on a snapshot of the changelog, which replaces
  the stored one only on commit; an abort leaves the stored changelog as it
  was. So the claims that a dry run always aborts, and that a failed global
  run is never committed, are the oracle's to keep and are not modelled.
- A migration's `down` receives the raw `db`, the `DB` facade or the client
  and could write to the changelog collection itself. The model assumes it
  does not: `down` only completes or throws. Every statement about which
  changelog documents survive (`RunShape`, `RunWithoutAbort`,
  `RunStopsAtFirstAbort`, `IndependentModeAttemptsAll`,
  `SkippedEntrySurvives`, `DeletedDocumentsWereReversed`) rests on that.
- `tsImport.load` compilation and the runtime `down.length` are replaced by a
  loader oracle returning an `Artifact` with a declared `arity`; a throwing
  load is `None` and is treated like a throwing `down`, as the shared `try`
  does.
- `nativeDetectionRegexPattern` is not part of this model: it is the oracle
  `isNative`, so any state a global regular expression keeps between calls is
  not modelled.
- `isFileExist`, `path.resolve`, `getEffectiveMigrationsDir` and
  `configHelper.readConfig` are file-system and configuration reads. They are
  parameters; `path.resolve` is folded into the `fileExists` and `load` oracles.
- `removeDirectory('.cache')` is the `Workspace.cachePresent` flag that
  `Down` clears on every path; the files inside the cache are not modelled.
  Dafny has no exceptions; each thrown error of the loop is an `Outcome` value
  and every such path ends in the same place.
- Command.Down: a throwing `configHelper.readConfig`, changelog query,
  `isFileExist` or `removeDirectory` is not modelled. Their errors would end
  `down` before the loop (or, for `removeDirectory`, replace its outcome);
  the model treats them as oracles that always answer.
- Command.Down: `handleDbTransaction` is assumed to call the callback exactly
  once with a fresh session, to leave `client.globalSession` set to it, and
  to report the loop's outcome unchanged; its retries are not modelled, and
  its commit or abort is the oracle `commits`.
- Selection.SelectQuery: options are JavaScript numbers modelled as integers
  with `NaN` and absent as separate values; fractional numbers, infinities
  and `null` option values are not modelled.
- Console output (chalk, `console.log`) and async scheduling are left out. The
  awaits run one after another, so the model is sequential.
- The changelog collection name from the configuration is the identity of the
  `Collection` object passed in.

=== FILE: changelog.dfy ===
/**
 * The changelog collection: one document per applied migration, keyed by its
 * `_id`. Only deletion by id is used during a rollback.
 */
module Changelog {

  type Id = nat

  /** A changelog document as the rollback sees it. */
  datatype Entry = Entry(id: Id, fileName: string, batch: int, appliedOrder: int)

  /** The collection's contents, keyed by document id (ids are unique). */
  type Log = map<Id, Entry>

  /** Every document is stored under its own id. */
  predicate WellKeyed(log: Log)
  {
    forall id :: id in log ==> log[id].id == id
  }

  /** The changelog collection, whose contents `deleteOne` updates in place. */
  class Collection {
    var entries: Log

    ghost predicate Valid()
      reads this
    {
      WellKeyed(entries)
    }

    constructor (initial: Log)
      requires WellKeyed(initial)
      ensures Valid() && entries == initial
    {
      entries := initial;
    }

    /**
     * `deleteOne({ _id: id })`. Whether the driver call completes is the
     * oracle value `succeeds`; when it throws nothing is removed.
     */
    method DeleteOne(id: Id, succeeds: bool) returns (ok: bool)
      requires Valid()
      modifies this
      ensures Valid()
      ensures ok == succeeds
      ensures entries == if succeeds then old(entries) - {id} else old(entries)
    {
      ok := succeeds;
      if succeeds {
        entries := entries - {id};
      }
    }
  }
}

=== FILE: command.dfy ===
/**
 * The `down` command: record the options on the client, decide the execution
 * mode, select and resolve the candidates, run the rollback (inside the global
 * session when one is used), and remove the compile cache on every exit.
 */
module Command {
  import opened Wrappers
  import opened Changelog
  import opened Selection
  import opened Rollback

  /** The configuration fields `down` reads. */
  datatype Config = Config(useDefaultTransaction: bool)

  /** The parts of the database client that `down` sets. */
  class MongoClient {
    var customOptions: Option<Options>
    var globalSession: Option<SessionId>

    constructor ()
      ensures customOptions == None && globalSession == None
    {
      customOptions := None;
      globalSession := None;
    }
  }

  /** The working directory's compile cache, `.cache`, which loading migrations fills. */
  class Workspace {
    var cachePresent: bool

    constructor (cachePresent: bool)
      ensures this.cachePresent == cachePresent
    {
      this.cachePresent := cachePresent;
    }
  }

  /** What a `down` run did. */
  datatype Report = Report(
    candidates: seq<Candidate>,   // the candidates whose file exists
    transactionOpened: bool,      // whether the rollback ran inside a fresh global session
    attempted: seq<Candidate>,
    outcome: Outcome,
    sessionLog: Log)              // the changelog as the loop left it, seen inside that session if any

  /**
   * `down`. The changelog queries, the file-system check, the session that a
   * transaction would open, whether `handleDbTransaction` commits that session
   * once the loop has ended with a given outcome (`commits`), and the
   * migrations' behaviour are parameters. Inside an opened session the loop
   * works on the session's view of the changelog, which reaches the stored
   * changelog only on commit.
   */
  method Down(db: Collection, client: MongoClient, ws: Workspace, options: Options, config: Config,
              migrationDirPath: string, query: Query -> seq<Entry>, fileExists: string -> bool,
              newSession: SessionId, commits: Outcome -> bool, env: Env)
    returns (r: Report)
    requires db.Valid()
    modifies db, client, ws
    ensures db.Valid()
    ensures client.customOptions == Some(options)
    ensures r.candidates == Resolve(query(SelectQuery(options)), migrationDirPath, fileExists)
    ensures r.transactionOpened <==> r.candidates != [] && (config.useDefaultTransaction || options.dryRun)
    ensures client.globalSession == if r.transactionOpened then Some(newSession) else old(client.globalSession)
    ensures r.candidates == [] ==>
      r.attempted == [] && r.outcome == Completed && r.sessionLog == old(db.entries)
    ensures r.candidates != [] ==>
      var run := RollbackRun(r.candidates, old(db.entries), client.globalSession, env);
      r.sessionLog == run.log && r.attempted == run.attempted && r.outcome == run.outcome
    ensures db.entries == if r.transactionOpened && !commits(r.outcome) then old(db.entries) else r.sessionLog
    ensures !ws.cachePresent
  {
    client.customOptions := Some(options);
    var hasGlobalTransaction := config.useDefaultTransaction || options.dryRun;
    var allMigrationsToRollback := query(SelectQuery(options));
    var migrationsToRollback := ResolveFiles(allMigrationsToRollback, migrationDirPath, fileExists);
    var openedSession := false;
    var attempted: seq<Candidate> := [];
    var outcome := Completed;
    var sessionLog := db.entries;
    if |migrationsToRollback| > 0 {
      if hasGlobalTransaction {
        openedSession := true;
        client.globalSession := Some(newSession);
        var view := new Collection(db.entries);
        attempted, outcome := RollbackMigrations(migrationsToRollback, view, client.globalSession, env);
        sessionLog := view.entries;
        if commits(outcome) {
          db.entries := sessionLog;
        }
      } else {
        attempted, outcome := RollbackMigrations(migrationsToRollback, db, client.globalSession, env);
        sessionLog := db.entries;
      }
    }
    r := Report(migrationsToRollback, openedSession, attempted, outcome, sessionLog);
    ws.cachePresent := false;
  }

  /**
   * A changelog document none of whose selected entries has a migration file
   * survives the run, whatever the reversals and deletions report. (A
   * migration's own writes to the changelog collection are not modelled.)
   */
  lemma {:induction false} SkippedEntrySurvives(all: seq<Entry>, dir: string, fileExists: string -> bool,
                             log: Log, session: Option<SessionId>, env: Env, e: Entry)
    requires e.id in log
    requires forall x :: x in all && x.id == e.id ==> !fileExists(PathOf(dir, x))
    ensures e.id in RollbackRun(Resolve(all, dir, fileExists), log, session, env).log
  {
    var cands := Resolve(all, dir, fileExists);
    var r := RollbackRun(cands, log, session, env);
    RunShape(cands, log, session, env);
    RunDeletesOnlyReversed(cands, log, session, env);
    forall c | c in r.attempted ensures c.entry.id != e.id {
      assert c in cands;
    }
    ReversedIdsOfCandidates(r.attempted, session, env, e.id);
  }
}

=== FILE: rollback.dfy ===
/**
 * The rollback loop of `rollbackMigrations`: each candidate's reversal entry
 * point is loaded and invoked, and on success its changelog document is
 * deleted. Loading, invoking and deleting are oracles collected in `Env`.
 */
module Rollback {
  import opened Wrappers
  import opened Changelog
  import opened Selection

  /** An opaque transaction session handle. */
  type SessionId = nat

  /** A loaded migration class: the declared parameter count of its `down`. */
  datatype Artifact = Artifact(arity: nat)

  /** The arguments a `down` entry point can receive. */
  datatype Arg =
    | RawDb                              // the driver's `Db`
    | Facade(session: Option<SessionId>) // the `DB` helper bound to the global session
    | ClientHandle                       // the `MongoClient`

  /**
   * How the body of the `try` ends: it completes, or it throws an error value,
   * which may be `undefined` or `null` (a migration can reject with anything).
   */
  datatype Attempt = Completes | Throws(nullish: bool)

  /** The results of the calls the rollback cannot see into. */
  datatype Env = Env(
    isNative: string -> bool,           // `nativeDetectionRegexPattern.test(fileName)`
    load: string -> Option<Artifact>,   // `tsImport.load(filePath)`; `None` when it throws an `Error`
    down: (string, seq<Arg>) -> Attempt, // how `down(...args)` of that file ends
    deleteSucceeds: Id -> bool)         // whether `deleteOne({ _id })` completes

  /**
   * The arguments `down` is invoked with: a native migration gets the raw
   * database and the client; a standard one gets the facade bound to the
   * current session, plus the client only when `down` declares more than one
   * parameter.
   */
  function DownArguments(fileName: string, artifact: Artifact, isNative: string -> bool,
                         session: Option<SessionId>): (args: seq<Arg>)
    ensures |args| == if isNative(fileName) || artifact.arity > 1 then 2 else 1
    ensures args[0] == RawDb <==> isNative(fileName)
    ensures args[0] != RawDb ==> args[0] == Facade(session)
    ensures ClientHandle in args <==> isNative(fileName) || artifact.arity > 1
    ensures ClientHandle in args ==> args[|args| - 1] == ClientHandle
  {
    if isNative(fileName) then [RawDb, ClientHandle]
    else if artifact.arity > 1 then [Facade(session), ClientHandle]
    else [Facade(session)]
  }

  /** How loading and then reversing the candidate ends. */
  function TryBody(env: Env, c: Candidate, session: Option<SessionId>): Attempt
  {
    match env.load(c.filePath)
    case None => Throws(false)
    case Some(a) => env.down(c.filePath, DownArguments(c.entry.fileName, a, env.isNative, session))
  }

  /** Whether loading and then reversing the candidate completes without throwing. */
  predicate Reverses(env: Env, c: Candidate, session: Option<SessionId>)
  {
    TryBody(env, c, session) == Completes
  }

  /** How a rollback run ends; a thrown error names the candidate it came from. */
  datatype Outcome =
    | Completed
    | TryThrew(failed: Candidate)    // loading or reversing threw; re-thrown under a global session
    | CatchThrew(failed: Candidate)    // `err.message` of a nullish error, without a session
    | DeleteThrew(failed: Candidate)

  /** The changelog afterwards, the candidates attempted in order, and the outcome. */
  datatype Run = Run(log: Log, attempted: seq<Candidate>, outcome: Outcome)

  /** `rest`, with `done` attempted before it. */
  function After(done: seq<Candidate>, rest: Run): Run
  {
    Run(rest.log, done + rest.attempted, rest.outcome)
  }

  /** One pass of the loop body: the run goes on with this changelog, or ends with this error. */
  datatype Step = Continue(log: Log) | Stop(outcome: Outcome)

  /**
   * A reversal that throws is re-thrown under a global session. Without one,
   * the catch reads `err.message`: for a nullish error that read throws and
   * ends the run, otherwise the document is only kept. After a completed
   * reversal the document is deleted, and a throwing `deleteOne` always ends
   * the run.
   */
  function Next(c: Candidate, attempt: Attempt, deleted: bool, log: Log, session: Option<SessionId>): Step
  {
    match attempt
    case Throws(nullish) =>
      if session.Some? then Stop(TryThrew(c))
      else if nullish then Stop(CatchThrew(c))
      else Continue(log)
    case Completes =>
      if deleted then Continue(log - {c.entry.id})
      else Stop(DeleteThrew(c))
  }

  /** The pass of the loop body for candidate `c`, with the oracles' answers for it. */
  function StepOf(c: Candidate, log: Log, session: Option<SessionId>, env: Env): Step
  {
    Next(c, TryBody(env, c, session), env.deleteSucceeds(c.entry.id), log, session)
  }

  /** The loop of `rollbackMigrations` as a function of the changelog before it. */
  function RollbackRun(cands: seq<Candidate>, log: Log, session: Option<SessionId>, env: Env): Run
    decreases |cands|
  {
    if cands == [] then Run(log, [], Completed)
    else
      match StepOf(cands[0], log, session, env)
      case Stop(outcome) => Run(log, [cands[0]], outcome)
      case Continue(next) => After([cands[0]], RollbackRun(cands[1..], next, session, env))
  }

  lemma AfterAfter(done: seq<Candidate>, more: seq<Candidate>, rest: Run)
    ensures After(done, After(more, rest)) == After(done + more, rest)
  {
    assert done + (more + rest.attempted) == (done + more) + rest.attempted;
  }

  /**
   * Whatever the oracles answer: the attempted candidates are a prefix of the
   * list, the run stops early only on an error, which comes from the last
   * candidate attempted, and the changelog afterwards is a part of the one
   * before, with every remaining document unchanged.
   */
  lemma {:induction false} RunShape(cands: seq<Candidate>, log: Log, session: Option<SessionId>, env: Env)
    ensures var r := RollbackRun(cands, log, session, env);
      && r.attempted <= cands
      && (r.outcome.Completed? ==> r.attempted == cands)
      && (!r.outcome.Completed? ==> r.attempted != [] && r.outcome.failed == r.attempted[|r.attempted| - 1])
      && (forall id :: id in r.log ==> id in log && r.log[id] == log[id])
  {
    if cands != [] {
      match StepOf(cands[0], log, session, env)
      case Stop(_) =>
      case Continue(next) => RunShape(cands[1..], next, session, env);
    }
  }

  /** The loop itself, deleting from the changelog collection step by step. */
  method RollbackMigrations(cands: seq<Candidate>, db: Collection, session: Option<SessionId>, env: Env)
    returns (attempted: seq<Candidate>, outcome: Outcome)
    requires db.Valid()
    modifies db
    ensures db.Valid()
    ensures var r := RollbackRun(cands, old(db.entries), session, env);
      db.entries == r.log && attempted == r.attempted && outcome == r.outcome
  {
    ghost var whole := RollbackRun(cands, db.entries, session, env);
    attempted := [];
    var i := 0;
    assert cands[i..] == cands;
    while i < |cands|
      invariant 0 <= i <= |cands|
      invariant db.Valid()
      invariant whole == After(attempted, RollbackRun(cands[i..], db.entries, session, env))
    {
      var appliedMigration := cands[i];
      ghost var done := attempted;
      ghost var log := db.entries;
      ghost var step := StepOf(appliedMigration, log, session, env);
      RunFrom(cands, i, log, session, env);
      attempted := attempted + [appliedMigration];
      var isProcessed := true;
      var result := Throws(false);
      var loaded := env.load(appliedMigration.filePath);
      match loaded {
        case None =>
        case Some(artifact) =>
          var args := DownArguments(appliedMigration.entry.fileName, artifact, env.isNative, session);
          result := env.down(appliedMigration.filePath, args);
      }
      assert result == TryBody(env, appliedMigration, session);
      if result.Throws? {
        if session.Some? {
          assert step == Stop(TryThrew(appliedMigration));
          outcome := TryThrew(appliedMigration);
          return;
        }
        if result.nullish {
          assert step == Stop(CatchThrew(appliedMigration));
          outcome := CatchThrew(appliedMigration);
          return;
        }
        isProcessed := false;
      }
      if isProcessed {
        var deleted := db.DeleteOne(appliedMigration.entry.id, env.deleteSucceeds(appliedMigration.entry.id));
        if !deleted {
          assert step == Stop(DeleteThrew(appliedMigration));
          outcome := DeleteThrew(appliedMigration);
          return;
        }
      }
      assert step == Continue(db.entries);
      AfterAfter(done, [appliedMigration], RollbackRun(cands[i + 1..], db.entries, session, env));
      i := i + 1;
    }
    assert cands[i..] == [];
    outcome := Completed;
  }

  /** One step of the run, taken at position `i`. */
  lemma {:induction false} RunFrom(cands: seq<Candidate>, i: nat, log: Log, session: Option<SessionId>, env: Env)
    requires i < |cands|
    ensures RollbackRun(cands[i..], log, session, env)
         == match StepOf(cands[i], log, session, env)
            case Stop(outcome) => Run(log, [cands[i]], outcome)
            case Continue(next) => After([cands[i]], RollbackRun(cands[i + 1..], next, session, env))
  {
    assert cands[i..][1..] == cands[i + 1..];
  }

  /** The ids of the candidates whose reversal completes. */
  function ReversedIds(cands: seq<Candidate>, session: Option<SessionId>, env: Env): set<Id>
  {
    if cands == [] then {}
    else (if Reverses(env, cands[0], session) then {cands[0].entry.id} else {})
         + ReversedIds(cands[1..], session, env)
  }

  /**
   * A candidate that does not end the run: its reversal and deletion both
   * complete, or its reversal throws a non-nullish error without a session.
   */
  predicate Proceeds(env: Env, c: Candidate, session: Option<SessionId>)
  {
    match TryBody(env, c, session)
    case Completes => env.deleteSucceeds(c.entry.id)
    case Throws(nullish) => session.None? && !nullish
  }

  /** The changelog after a candidate that proceeds: without its id exactly when it reversed. */
  function LogAfter(c: Candidate, log: Log, session: Option<SessionId>, env: Env): Log
  {
    if Reverses(env, c, session) then log - {c.entry.id} else log
  }

  /** The error of a candidate that does not proceed. */
  function AbortOf(c: Candidate, session: Option<SessionId>, env: Env): Outcome
  {
    if Reverses(env, c, session) then DeleteThrew(c)
    else if session.Some? then TryThrew(c)
    else CatchThrew(c)
  }

  lemma StepWhenProceeds(c: Candidate, log: Log, session: Option<SessionId>, env: Env)
    requires Proceeds(env, c, session)
    ensures StepOf(c, log, session, env) == Continue(LogAfter(c, log, session, env))
  {
  }

  lemma StepWhenStops(c: Candidate, log: Log, session: Option<SessionId>, env: Env)
    requires !Proceeds(env, c, session)
    ensures StepOf(c, log, session, env) == Stop(AbortOf(c, session, env))
  {
  }

  /**
   * When no candidate ends the run, every candidate is attempted in order and
   * the changelog loses exactly the ids of the reversed candidates.
   */
  lemma {:induction false} RunWithoutAbort(cands: seq<Candidate>, log: Log, session: Option<SessionId>, env: Env)
    requires forall i :: 0 <= i < |cands| ==> Proceeds(env, cands[i], session)
    ensures var r := RollbackRun(cands, log, session, env);
      r.outcome == Completed && r.attempted == cands && r.log == log - ReversedIds(cands, session, env)
  {
    if cands != [] {
      var c := cands[0];
      var log' := LogAfter(c, log, session, env);
      StepWhenProceeds(c, log, session, env);
      RunWithoutAbort(cands[1..], log', session, env);
      TailReversedIds(cands, log, session, env);
    }
  }

  /**
   * The first candidate that does not proceed is the last one attempted: its
   * error ends the run, the changelog keeps its document, and only the
   * candidates reversed before it have lost theirs.
   */
  lemma {:induction false} RunStopsAtFirstAbort(cands: seq<Candidate>, log: Log, session: Option<SessionId>,
                                                env: Env, k: nat)
    requires k < |cands|
    requires forall i :: 0 <= i < k ==> Proceeds(env, cands[i], session)
    requires !Proceeds(env, cands[k], session)
    ensures var r := RollbackRun(cands, log, session, env);
      && r.attempted == cands[..k + 1]
      && r.log == log - ReversedIds(cands[..k], session, env)
      && r.outcome == AbortOf(cands[k], session, env)
  {
    var c := cands[0];
    if k == 0 {
      StepWhenStops(c, log, session, env);
      assert cands[..1] == [c];
      assert log - ReversedIds([], session, env) == log;
    } else {
      var log' := LogAfter(c, log, session, env);
      StepWhenProceeds(c, log, session, env);
      RunStopsAtFirstAbort(cands[1..], log', session, env, k - 1);
      var rest := RollbackRun(cands[1..], log', session, env);
      assert RollbackRun(cands, log, session, env) == After([c], rest);
      assert [c] + cands[1..][..k] == cands[..k + 1];
      PrefixReversedIds(cands, k, log, session, env);
    }
  }

  /** Removing the reversed ids of a list, one candidate at a time. */
  lemma TailReversedIds(cands: seq<Candidate>, log: Log, session: Option<SessionId>, env: Env)
    requires cands != []
    ensures LogAfter(cands[0], log, session, env) - ReversedIds(cands[1..], session, env)
         == log - ReversedIds(cands, session, env)
  {
  }

  /** Removing the reversed ids of a prefix, one candidate at a time. */
  lemma PrefixReversedIds(cands: seq<Candidate>, k: nat, log: Log, session: Option<SessionId>, env: Env)
    requires 0 < k < |cands|
    ensures LogAfter(cands[0], log, session, env) - ReversedIds(cands[1..][..k - 1], session, env)
         == log - ReversedIds(cands[..k], session, env)
  {
    assert cands[1..][..k - 1] == cands[..k][1..];
  }

  /**
   * Without a global session and with every deletion it issues completing, every
   * candidate is attempted in list order, the run completes, and the changelog
   * equals the old one minus exactly the ids of the reversed candidates; the
   * documents of failed candidates and all others are unchanged.
   */
  lemma {:induction false} IndependentModeAttemptsAll(cands: seq<Candidate>, log: Log, env: Env)
    requires forall i :: 0 <= i < |cands| ==> Reverses(env, cands[i], None) ==> env.deleteSucceeds(cands[i].entry.id)
    requires forall i :: 0 <= i < |cands| ==> TryBody(env, cands[i], None) != Throws(true)
    ensures var r := RollbackRun(cands, log, None, env);
      && r.outcome == Completed
      && r.attempted == cands
      && r.log == log - ReversedIds(cands, None, env)
  {
    RunWithoutAbort(cands, log, None, env);
  }

  /**
   * Under a global session the first reversal that throws is re-thrown: no
   * deletion is issued for it, no later candidate is attempted, and the
   * deletions issued before it (every earlier candidate's) stand.
   */
  lemma {:induction false} GlobalSessionStopsAtFirstFailure(cands: seq<Candidate>, log: Log, session: SessionId, env: Env, k: nat)
    requires k < |cands|
    requires forall i :: 0 <= i < k ==> env.deleteSucceeds(cands[i].entry.id)
    requires forall i :: 0 <= i < k ==> Reverses(env, cands[i], Some(session))
    requires !Reverses(env, cands[k], Some(session))
    ensures var r := RollbackRun(cands, log, Some(session), env);
      && r.outcome == TryThrew(cands[k])
      && r.attempted == cands[..k + 1]
      && r.log == log - set i | 0 <= i < k :: cands[i].entry.id
  {
    forall i | 0 <= i < k ensures Proceeds(env, cands[i], Some(session)) {
    }
    RunStopsAtFirstAbort(cands, log, Some(session), env, k);
    var before := cands[..k];
    assert forall i :: 0 <= i < k ==> before[i] == cands[i];
    AllReversedIds(before, Some(session), env);
    assert (set i | 0 <= i < k :: before[i].entry.id) == (set i | 0 <= i < k :: cands[i].entry.id);
  }

  /** When every candidate reverses, the reversed ids are all the candidates' ids. */
  lemma {:induction false} AllReversedIds(cands: seq<Candidate>, session: Option<SessionId>, env: Env)
    requires forall i :: 0 <= i < |cands| ==> Reverses(env, cands[i], session)
    ensures ReversedIds(cands, session, env) == set i | 0 <= i < |cands| :: cands[i].entry.id
  {
    if cands != [] {
      AllReversedIds(cands[1..], session, env);
      var tail := set i | 0 <= i < |cands| - 1 :: cands[1..][i].entry.id;
      var all := set i | 0 <= i < |cands| :: cands[i].entry.id;
      assert all == {cands[0].entry.id} + tail by {
        forall id | id in all ensures id in {cands[0].entry.id} + tail {
          var i :| 0 <= i < |cands| && cands[i].entry.id == id;
          if i > 0 { assert cands[1..][i - 1].entry.id == id; }
        }
        forall id | id in tail ensures id in all {
          var i :| 0 <= i < |cands| - 1 && cands[1..][i].entry.id == id;
          assert cands[i + 1].entry.id == id;
        }
      }
    }
  }

  /** A reversed id is the id of one of the candidates. */
  lemma {:induction false} ReversedIdsOfCandidates(cands: seq<Candidate>, session: Option<SessionId>, env: Env, id: Id)
    requires forall c :: c in cands ==> c.entry.id != id
    ensures id !in ReversedIds(cands, session, env)
  {
    if cands != [] {
      assert cands[0] in cands;
      ReversedIdsOfCandidates(cands[1..], session, env, id);
    }
  }

  /**
   * Whatever the oracles answer, a run deletes only documents of candidates it
   * attempted and whose reversal completed; a failed reversal never loses its
   * document.
   */
  lemma {:induction false} RunDeletesOnlyReversed(cands: seq<Candidate>, log: Log, session: Option<SessionId>, env: Env)
    ensures var r := RollbackRun(cands, log, session, env);
      log.Keys - r.log.Keys <= ReversedIds(r.attempted, session, env)
  {
    if cands != [] {
      var c := cands[0];
      match StepOf(c, log, session, env)
      case Stop(_) =>
      case Continue(next) =>
        RunDeletesOnlyReversed(cands[1..], next, session, env);
        RunShape(cands[1..], next, session, env);
        var rest := RollbackRun(cands[1..], next, session, env);
        assert ([c] + rest.attempted)[1..] == rest.attempted;
    }
  }

  /**
   * On a changelog that stores every document under its own `_id`, the run
   * keeps it so, and each document it removes carries in its `_id` field the
   * id of a candidate that was attempted and reversed.
   */
  lemma {:induction false} DeletedDocumentsWereReversed(cands: seq<Candidate>, log: Log,
                                                        session: Option<SessionId>, env: Env)
    requires WellKeyed(log)
    ensures var r := RollbackRun(cands, log, session, env);
      && WellKeyed(r.log)
      && forall id :: id in log && id !in r.log ==> log[id].id in ReversedIds(r.attempted, session, env)
  {
    RunShape(cands, log, session, env);
    RunDeletesOnlyReversed(cands, log, session, env);
  }
}

=== FILE: selection.dfy ===
/**
 * Which changelog query a rollback runs, and which of its results have a
 * migration file on disk.
 */
module Selection {
  import opened Wrappers
  import opened Changelog

  /** A numeric option as JavaScript holds it: absent, NaN, or a number. */
  datatype NumberOption = Undefined | NaN | Number(value: int)

  /**
   * Rollback options. `None` stands for an absent `file`; an absent `reset`
   * or `dryRun` is `false`.
   */
  datatype Options = Options(
    file: Option<string>,
    reset: bool,
    batch: NumberOption,
    steps: NumberOption,
    dryRun: bool)

  /** JavaScript truthiness of `options.file`: present and not the empty string. */
  predicate FileGiven(o: Options)
  {
    o.file.Some? && o.file.value != ""
  }

  /** JavaScript truthiness of `options.batch`: a number other than zero (NaN and absent are falsy). */
  predicate BatchGiven(o: Options)
  {
    o.batch.Number? && o.batch.value != 0
  }

  /** The changelog queries, whose bodies are not part of this model. */
  datatype Query =
    | MigrationForFile(file: string)
    | LatestMigrations(steps: NumberOption)
    | LatestMigrationBatch(batch: int)

  /** The ternary chain of `getMigrationsToRollback`: file, then reset, then batch, then steps. */
  function SelectQuery(o: Options): (q: Query)
    ensures q.MigrationForFile? <==> FileGiven(o)
    ensures q.MigrationForFile? ==> q.file == o.file.value
    ensures !FileGiven(o) && o.reset ==> q == LatestMigrations(Number(0))
    ensures q.LatestMigrationBatch? <==> !FileGiven(o) && !o.reset && BatchGiven(o)
    ensures q.LatestMigrationBatch? ==> q.batch == o.batch.value && q.batch != 0
    ensures !FileGiven(o) && !o.reset && !BatchGiven(o) ==> q == LatestMigrations(o.steps)
  {
    if FileGiven(o) then MigrationForFile(o.file.value)
    else if o.reset then LatestMigrations(Number(0))
    else if BatchGiven(o) then LatestMigrationBatch(o.batch.value)
    else LatestMigrations(o.steps)
  }

  /**
   * Each mode beats the ones after it: once a mode is selected, the options of
   * lower precedence (and `dryRun`) have no influence on the query.
   */
  lemma SelectionPrecedence(o: Options, reset: bool, batch: NumberOption, steps: NumberOption, dryRun: bool)
    ensures FileGiven(o) ==>
      SelectQuery(o) == SelectQuery(o.(reset := reset, batch := batch, steps := steps, dryRun := dryRun))
    ensures !FileGiven(o) && o.reset ==>
      SelectQuery(o) == SelectQuery(o.(batch := batch, steps := steps, dryRun := dryRun))
    ensures !FileGiven(o) && !o.reset && BatchGiven(o) ==>
      SelectQuery(o) == SelectQuery(o.(steps := steps, dryRun := dryRun))
    ensures SelectQuery(o) == SelectQuery(o.(dryRun := dryRun))
  {
  }

  /** A changelog entry together with the path of its migration file. */
  datatype Candidate = Candidate(entry: Entry, filePath: string)

  /** `${migrationDirPath}/${fileName}`. */
  function PathOf(dir: string, e: Entry): string
  {
    dir + "/" + e.fileName
  }

  /**
   * The candidates whose file exists, in the query's order; `fileExists` is the
   * file-system oracle applied to the joined path.
   */
  function Resolve(all: seq<Entry>, dir: string, fileExists: string -> bool): (kept: seq<Candidate>)
    ensures |kept| <= |all|
    ensures forall c :: c in kept ==>
      c.entry in all && c.filePath == PathOf(dir, c.entry) && fileExists(c.filePath)
  {
    if all == [] then []
    else
      var prev := Resolve(all[..|all| - 1], dir, fileExists);
      var e := all[|all| - 1];
      var p := PathOf(dir, e);
      if fileExists(p) then prev + [Candidate(e, p)] else prev
  }

  /** The positions in `all` whose file exists, in increasing order. */
  ghost function KeptIndices(all: seq<Entry>, dir: string, fileExists: string -> bool): seq<nat>
  {
    if all == [] then []
    else
      var n := |all| - 1;
      var prev := KeptIndices(all[..n], dir, fileExists);
      if fileExists(PathOf(dir, all[n])) then prev + [n] else prev
  }

  /** `idx` lists positions below `bound` in strictly increasing order. */
  ghost predicate StrictlyIncreasing(idx: seq<nat>, bound: nat)
  {
    && (forall j :: 0 <= j < |idx| ==> idx[j] < bound)
    && (forall j, k :: 0 <= j < k < |idx| ==> idx[j] < idx[k])
  }

  /** The k-th candidate of `kept` is the entry at position `idx[k]` of `all`, with its joined path. */
  ghost predicate SelectsAt(idx: seq<nat>, all: seq<Entry>, dir: string, kept: seq<Candidate>)
  {
    && |idx| == |kept|
    && forall j :: 0 <= j < |idx| ==>
         idx[j] < |all| && kept[j] == Candidate(all[idx[j]], PathOf(dir, all[idx[j]]))
  }

  /** `idx` holds exactly the positions of `all` whose file exists. */
  ghost predicate ExactlyExisting(idx: seq<nat>, all: seq<Entry>, dir: string, fileExists: string -> bool)
  {
    forall i :: 0 <= i < |all| ==> (i in idx <==> fileExists(PathOf(dir, all[i])))
  }

  /** Each kept candidate is the entry at the matching kept position, with its joined path. */
  lemma {:induction false} KeptIndicesSelect(all: seq<Entry>, dir: string, fileExists: string -> bool)
    ensures SelectsAt(KeptIndices(all, dir, fileExists), all, dir, Resolve(all, dir, fileExists))
  {
    if all != [] {
      var n := |all| - 1;
      KeptIndicesSelect(all[..n], dir, fileExists);
      assert forall i :: 0 <= i < n ==> all[..n][i] == all[i];
    }
  }

  /** The kept positions are strictly increasing, so the filter keeps the query's order. */
  lemma {:induction false} KeptIndicesIncreasing(all: seq<Entry>, dir: string, fileExists: string -> bool)
    ensures StrictlyIncreasing(KeptIndices(all, dir, fileExists), |all|)
  {
    if all != [] {
      var n := |all| - 1;
      KeptIndicesIncreasing(all[..n], dir, fileExists);
    }
  }

  /** A position is kept exactly when its file exists: missing files are dropped, nothing else is. */
  lemma {:induction false} KeptIndicesExact(all: seq<Entry>, dir: string, fileExists: string -> bool)
    ensures ExactlyExisting(KeptIndices(all, dir, fileExists), all, dir, fileExists)
  {
    if all != [] {
      var n := |all| - 1;
      KeptIndicesExact(all[..n], dir, fileExists);
      KeptIndicesIncreasing(all[..n], dir, fileExists);
      var prev := KeptIndices(all[..n], dir, fileExists);
      assert forall i :: 0 <= i < n ==> all[..n][i] == all[i];
      assert n !in prev;
    }
  }

  /** The `forEach` of `down` that pushes every candidate whose file exists. */
  method ResolveFiles(all: seq<Entry>, dir: string, fileExists: string -> bool) returns (kept: seq<Candidate>)
    ensures kept == Resolve(all, dir, fileExists)
  {
    kept := [];
    var i := 0;
    while i < |all|
      invariant 0 <= i <= |all|
      invariant kept == Resolve(all[..i], dir, fileExists)
    {
      var m := all[i];
      var filePath := PathOf(dir, m);
      if fileExists(filePath) {
        kept := kept + [Candidate(m, filePath)];
      }
      assert all[..i + 1][..i] == all[..i];
      i := i + 1;
    }
    assert all[..i] == all;
  }
}

=== FILE: wrappers.dfy ===
/** Optional values, standing for JavaScript's `undefined` next to a present value. */
module Wrappers {
  datatype Option<+T> = None | Some(value: T)
}
